=== FILE: README.md ===
# amrex-astro-diag: field resolution, boundary policy and fill plans

This project models the integer and string bookkeeping of two AMReX plotfile
diagnostics. `fluxes` computes the convective flux `Fconv = rho cp vy dT`.
`convective_grad` computes the centred gradient `del = dlnT/dlnP` along the
vertical axis. `fluxes` calls the resolver in `amrex_astro_util.H`;
`convective_grad` carries an inlined copy with "p0" as the pressure alias.

Modules, one concept each:

- `Lookup`: `std::find` plus `std::distance` (first occurrence, or none).
- `AstroUtil`: the header resolvers `get_dens_index`, `get_temp_index`,
  `get_pres_index` and `get_spec_index`. A canonical name is tried first and
  a single legacy alias after it. The species must form a contiguous block
  in the compiled network order. The compiled network (`short_spec_names_cxx`,
  `NumSpec`) is a parameter `species`, with `NumSpec == |species|`.
- `Paths`: removal of one trailing `/`, and `std::filesystem::path::filename`.
- `Hierarchy`: the plotfile metadata (`spaceDim`, `finestLevel`, `varNames`,
  `refRatio`, `levelStep`), refinement-ratio truncation, and the assembly of
  `level_steps` / `ref_ratio`. `AMREX_SPACEDIM` is a parameter `amrexDim`.
- `Boundary`: the per-axis `BCRec`, `is_periodic` and `ng` loop.
- `FillPlan`: each `FillPatchSingleLevel` / `FillPatchTwoLevels` call as a
  record (buffer, buffer component, source levels and components, ratio).
  Each per-cell kernel read is a record too (array, component, offset).
- `Fluxes` and `ConvectiveGrad`: each tool's own lookups, output path, fill
  blocks, kernel reads and `main_main`. In the model, `main_main` returns
  either the first fatal abort or everything it hands to
  `WriteMultiLevelPlotfile`.

Every `amrex::Error` and the `AMREX_ALWAYS_ASSERT` on the dimensionality is a
case of `Errors.Fatal`. Where the code could abort, the model returns a
`Result`. The model has no requires clause in place of an abort.

Three points where the code may surprise a reader; the model follows the code:
- A level k > 0 is filled from the plotfile's stored data at levels k - 1
  and k (`pf.get(ilev-1, ...)`). It is not filled from level k - 1's
  reconstructed buffer.
- The gradient kernel reads `T` and `P` at the cell from the padded buffers.
- The two tools use different pressure aliases: `p0pluspi` in the header and
  `p0` in `convective_grad`.

The species check indexes `var_names_pf[spec_comp+n]` without a bounds
check. If the block runs past the end of the list, the code reads past the
end of the vector. The model makes that case an abort,
`SpeciesBlockTruncated(n)`, raised at the first such offset.

## Model

| member | source | states |
|---|---|---|
| Lookup.Find | source/amrex_astro_util.H:150-158 | absent iff the name is not in the list; otherwise the index holds the name and no earlier index does |
| Lookup.FindEither | source/amrex_astro_util.H:150-158 | the alias is consulted only when the primary name occurs nowhere: priority beats position; fails iff both are absent |
| AstroUtil.GetDensIndex | source/amrex_astro_util.H:147-159 | first "density" if present anywhere, else first "rho"; aborts with the density error iff both are absent |
| AstroUtil.GetTempIndex | source/amrex_astro_util.H:165-177 | first "Temp", else first "tfromp"; aborts iff both are absent |
| AstroUtil.GetPresIndex | source/amrex_astro_util.H:183-195 | first "pressure", else first "p0pluspi"; aborts iff both are absent |
| AstroUtil.FirstMismatch | source/amrex_astro_util.H:215-224 | the smallest offset from `from` on whose slot does not hold the compiled species label; every earlier offset matches |
| AstroUtil.SpecIndex | source/amrex_astro_util.H:202-226 | success gives the first slot of "X(" + species[0] + ")", with every species n at slot s + n; aborts with the first-species error iff that label is absent; otherwise succeeds iff the block is intact, and an abort reports the smallest bad offset with the expected and found labels |
| AstroUtil.GetSpecIndex | source/amrex_astro_util.H:202-226 | the find-then-walk loop computes exactly SpecIndex |
| Paths.StripTrailingSlash | source/fluxes/main.cpp:56-58 | the result is the path with at most one character removed, and one is removed iff the path ends in '/' |
| Paths.LastComponent | source/convective_grad/main.cpp:32-33 | a suffix of the path with no '/', preceded in the path by '/' unless it is the whole path |
| Paths.LastComponentAfterSlash | source/convective_grad/main.cpp:32-33 | the filename of dir + "/" + base is base when base has no '/' |
| Hierarchy.TruncateRatio | source/fluxes/main.cpp:189-192 | the ratio keeps its length and its active axes; every axis at or beyond ndims becomes 1 |
| Hierarchy.AssembleMetadata | source/fluxes/main.cpp:414-424 | level_steps has one entry per level, equal to levelStep; ref_ratio has one entry per level below the finest, each truncated to 1 on inactive axes (the copy at convective_grad/main.cpp:248-258 is the same) |
| Boundary.InterpretBoundaries | source/fluxes/main.cpp:100-113 | active axes: hoextrapcc on both faces, not periodic, ghost width 1; inactive axes: int_dir, periodic, ghost width 0 |
| Boundary.PolicyIsUnique | source/convective_grad/main.cpp:113-126 | the policy is determined by ndims, so the copy in convective_grad and every level's reuse of bcr_default give the same record |
| Boundary.InactiveAxesAreDegenerate | source/fluxes/main.cpp:103-113 | an inactive axis is periodic, has no ghost cells and (by the ratio truncation at fluxes/main.cpp:189-192) interpolates with ratio 1; an active one keeps its ratio and one ghost cell |
| FillPlan.FillAt | source/fluxes/main.cpp:145-245 | the one shape every fill call has: level 0 single-level from its own data, level k > 0 two-level from k - 1 and k with the same component on both and the truncated ratio; it reads the requested component |
| FillPlan.FillRatiosAreWrittenRatios | source/fluxes/main.cpp:189-205 | every fill above level 0 is two-level and interpolates with the same ratio the output records for the level below |
| Fluxes.GetVyIndex | source/fluxes/main.cpp:24-32 | first "vely", no alias; aborts iff absent |
| Fluxes.GetDTIndex | source/fluxes/main.cpp:34-42 | first "tpert", no alias; aborts iff absent |
| Fluxes.Fields | source/fluxes/main.cpp:82-87 | the six lookups abort in source order, each with its own abort: density, temperature, pressure, then the species check's own abort (first bad offset with expected and found labels), then vely, then tpert; on success every slot holds its quantity, the species block is intact, and each slot is the one the individual resolver picks (canonical name before alias, first occurrence) |
| Fluxes.FieldsSucceedIff | source/fluxes/main.cpp:82-87 | the six lookups succeed iff each quantity or its alias is present and the species block is intact; every resolved slot then holds its quantity |
| Fluxes.OutputPath | source/fluxes/main.cpp:50-60 | an empty plotfile name aborts; otherwise one trailing '/' is removed and "/fluxes" appended |
| Fluxes.OutputPathIgnoresOneTrailingSlash | source/fluxes/main.cpp:56-60 | "p/" gives the same output as "p"; a second trailing '/' survives |
| Fluxes.LevelFills | source/fluxes/main.cpp:145-245 | the level fills T, P, species n into component n from slot spec_comp + n, vy and dT; level 0 single-level from itself; level k > 0 two-level from k - 1 and k, the same component on both, at the truncated ratio |
| Fluxes.PlanLevels | source/fluxes/main.cpp:117-247 | one fill block per level, each satisfying the level contract |
| Fluxes.KernelReads | source/fluxes/main.cpp:394-405 | the flux kernel makes four level-data reads then NumSpec padded species reads, every one at the cell itself |
| Fluxes.KernelIsPointwise | source/fluxes/main.cpp:394-408 | the kernel reads only the cell itself: exactly rho, T, vy and dT (each of them) from unpadded level data and species components below NumSpec from the padded X; the component it writes is declared in the one-variable output |
| Fluxes.FieldsSpeciesBlock | source/fluxes/main.cpp:85 | a successful resolution puts the intact species block at spec_comp |
| Fluxes.KernelReadsEverySpecies | source/fluxes/main.cpp:403-405 | every species component n < NumSpec is passed to the EOS |
| Fluxes.KernelSpeciesComeFromNetworkSlots | source/fluxes/main.cpp:161-226 | each species component the kernel passes to the EOS was filled at every level from the slot holding that species of the compiled network |
| Fluxes.MainMain | source/fluxes/main.cpp:44-428 | aborts in source order (empty path, then dimensionality, then the lookups); on success the output path, slots, policy, per-level fills and metadata are all as specified, and fill ratios equal the written ratios |
| ConvectiveGrad.Fields | source/convective_grad/main.cpp:55-102 | the inlined lookups abort in source order, each with its own abort: density, temperature, pressure with alias "p0", then the species check's own abort; on success every slot holds its quantity and the species block is intact |
| ConvectiveGrad.ResolveFields | source/convective_grad/main.cpp:53-102 | the inlined resolver with reassigned `idx` computes density, temperature, "pressure"-else-"p0" and the species block, aborting at the first failure |
| ConvectiveGrad.FieldsAgreeWithHeader | source/convective_grad/main.cpp:55-102 | succeeds iff each quantity or alias is present and the block is intact; density, temperature and species agree with the header; pressure agrees whenever "pressure" is present |
| ConvectiveGrad.PressureAliasDiffersFromHeader | source/convective_grad/main.cpp:75-83 | a "p0pluspi" file is accepted by the header and rejected here; a "p0" file the reverse |
| ConvectiveGrad.OutputName | source/convective_grad/main.cpp:28-33 | "convgrad." followed by a name containing no '/' |
| ConvectiveGrad.OutputNameIsBaseName | source/convective_grad/main.cpp:28-33 | dir/plt and dir/plt/ give convgrad.plt; dir/plt// gives "convgrad." |
| ConvectiveGrad.OutputNameOfBareName | source/convective_grad/main.cpp:28-33 | a plotfile name without '/', with or without one trailing '/', gives "convgrad." followed by that name |
| ConvectiveGrad.LevelFillsAsWritten | source/convective_grad/main.cpp:154-201 | two fills, each by the level contract (single-level at 0, two-level above) |
| ConvectiveGrad.AsWrittenPressureBufferHoldsTemperature | source/convective_grad/main.cpp:192-199 | above level 0, on every accepted plotfile the pressure buffer is filled from a "Temp"/"tfromp" slot, so the block misses its targets |
| ConvectiveGrad.AsWrittenLevelZeroIsPlanned | source/convective_grad/main.cpp:154-168 | at level 0 the as-written block fills T from temp_comp and P from pres_comp |
| ConvectiveGrad.LevelFills | source/convective_grad/main.cpp:154-201 | corrected block: T from temp_comp and P from pres_comp at every level, by the level contract |
| ConvectiveGrad.PressureBufferHoldsPressure | source/convective_grad/main.cpp:163-168 | with the corrected block the pressure buffer is filled from a "pressure"/"p0" slot at every level |
| ConvectiveGrad.VerticalAxis | source/convective_grad/main.cpp:226-243 | the vertical axis is x, y or z; for 1 to 3 active dimensions it is the last active axis, ndims - 1 |
| ConvectiveGrad.KernelReads | source/convective_grad/main.cpp:226-243 | six reads, only of the padded T and P buffers, component 0, offset 0 off the vertical axis and at most one cell along it; each of T and P is read at -1, 0 and +1 along the vertical axis |
| ConvectiveGrad.StencilWithinGhostCells | source/convective_grad/main.cpp:226-243 | every read of the stencil is a padded T or P read whose offset is within the ghost width on every axis |
| ConvectiveGrad.DelAdIsNeverWritten | source/convective_grad/main.cpp:107-109 | component 0 is "del"; the other declared component, "del_ad", is never written |
| ConvectiveGrad.DelGradient | source/convective_grad/main.cpp:228-230 | the result r satisfies r (P+ - P-) T = (T+ - T-) P, the centred dlnT/dlnP |
| ConvectiveGrad.PlanLevels | source/convective_grad/main.cpp:132-201 | one corrected fill block per level, each satisfying the level contract |
| ConvectiveGrad.MainMain | source/convective_grad/main.cpp:22-262 | aborts in source order (dimensionality, then the lookups); on success the output name, slots, policy, per-level fills (corrected) and metadata are as specified, and fill ratios equal the written ratios |

## Findings

| source | as written | input that shows it | evidently intended | confidence | as-written member | corrected member |
|---|---|---|---|---|---|---|
| source/convective_grad/main.cpp:194-195 | above level 0 the pressure buffer's coarse and fine sources are both `temp_comp` (lemma AsWrittenPressureBufferHoldsTemperature) | any plotfile with two levels, e.g. variables ["density", "Temp", "pressure", "X(he4)"]: level 1's P buffer is filled from slot 1, "Temp" | `pres_comp` at every level, as at level 0 (line 165); proved by PressureBufferHoldsPressure | high; not executed | ConvectiveGrad.LevelFillsAsWritten | ConvectiveGrad.LevelFills |

## Left out

- FillPatchSingleLevel, FillPatchTwoLevels, hoextrapcc extrapolation and cell_cons_interp are AMReX library code. Their source is not part of this model, so a fill is only a record of what it reads. Constant preservation by extrapolation or interpolation is not stated.
- The EOS and network (`eos_init`, `network_init`, `eos`, `eos_state.cp`) are foreign calls. The flux product `rho * cp * vy * dT` is floating point. The model states only what the flux kernel reads.
- ConvectiveGrad.DelGradient: stated over exact reals and only for nonzero `P+ - P-` and `T`. The source divides without a guard in floating point and yields inf or NaN there; that is not modelled.
- ConvectiveGrad.MainMain: requires a non-empty plotfile name, because `pltfile.back()` on an empty string is undefined behaviour. This tool has no empty-path check.
- ConvectiveGrad.MainMain: uses the corrected pressure fill (see Findings), not the as-written one.
- `GetVarFromJobInfo` (file read, regex), `GetCenter` (`stod`) and `get_coord_info` (sqrt, volumes) are I/O or floating point.
- `PlotFileData` reading, `WriteMultiLevelPlotfile`, `MultiFab`, `DistributionMapping`, `Geometry`, `RealBox`, `pf.time()`, and the MFIter / OpenMP / GPU `ParallelFor` loop over cells are I/O and parallel plumbing. The kernels are modelled per cell.
- The messages written to standard output: the output path, and the expected and found species names with the rebuild hint. An abort carries the same data.
- The commented-out del_ad / Ledoux code in fluxes/main.cpp is dead code.
- `main`, `amrex::Initialize` / `Finalize`, `init_extern_parameters`, and the unused `narg`, `varnames` and `dx`.
- AstroUtil.SpecIndex: the species check indexes `var_names_pf[spec_comp+n]` without a bounds check, so a block running past the end of the list is undefined behaviour in the code; the model (and GetSpecIndex) aborts with `SpeciesBlockTruncated(n)` at the first such offset instead.
- Fills record the plotfile slot number they read; the code fetches the data by name, `pf.get(ilev, var_names_pf[comp])`. The two differ only when a plotfile repeats a variable name, where the fetch by name would return whichever copy the plotfile reader picks.

=== FILE: astro_util.dfy ===
/**
 * The shared field resolver of amrex_astro_util.H: the density, temperature
 * and pressure lookups (canonical name, then one legacy alias) and the check
 * that the species occupy one contiguous block in the compiled order.
 *
 * The compiled network (`short_spec_names_cxx`, `NumSpec`) is an explicit
 * parameter `species`, with NumSpec == |species|.
 */
module AstroUtil {

  import opened Wrappers
  import opened Lookup
  import opened Errors

  /** `get_dens_index`: "density", else the MAESTROeX name "rho". */
  function GetDensIndex(names: seq<string>): (r: Result<nat, Fatal>)
    ensures r.Success? <==> "density" in names || "rho" in names
    ensures "density" in names ==> r.Success? && IsFirst(names, "density", r.value)
    ensures "density" !in names && "rho" in names ==> r.Success? && IsFirst(names, "rho", r.value)
    ensures r.Failure? ==> r.error == DensityNotFound
  {
    match FindEither(names, "density", "rho")
    case Some(i) => Success(i)
    case None => Failure(DensityNotFound)
  }

  /** `get_temp_index`: "Temp", else "tfromp". */
  function GetTempIndex(names: seq<string>): (r: Result<nat, Fatal>)
    ensures r.Success? <==> "Temp" in names || "tfromp" in names
    ensures "Temp" in names ==> r.Success? && IsFirst(names, "Temp", r.value)
    ensures "Temp" !in names && "tfromp" in names ==> r.Success? && IsFirst(names, "tfromp", r.value)
    ensures r.Failure? ==> r.error == TemperatureNotFound
  {
    match FindEither(names, "Temp", "tfromp")
    case Some(i) => Success(i)
    case None => Failure(TemperatureNotFound)
  }

  /** `get_pres_index`: "pressure", else "p0pluspi". */
  function GetPresIndex(names: seq<string>): (r: Result<nat, Fatal>)
    ensures r.Success? <==> "pressure" in names || "p0pluspi" in names
    ensures "pressure" in names ==> r.Success? && IsFirst(names, "pressure", r.value)
    ensures "pressure" !in names && "p0pluspi" in names ==> r.Success? && IsFirst(names, "p0pluspi", r.value)
    ensures r.Failure? ==> r.error == PressureNotFound
  {
    match FindEither(names, "pressure", "p0pluspi")
    case Some(i) => Success(i)
    case None => Failure(PressureNotFound)
  }

  /** The plotfile variable name of a species: "X(" + short name + ")". */
  function SpeciesLabel(short: string): string {
    "X(" + short + ")"
  }

  /** Slot `i` exists and holds `want`. */
  predicate SlotHolds(names: seq<string>, i: nat, want: string) {
    i < |names| && names[i] == want
  }

  /** The species appear at slots s, s + 1, ... in exactly the compiled order. */
  predicate BlockAt(names: seq<string>, species: seq<string>, s: nat) {
    forall n :: 0 <= n < |species| ==> SlotHolds(names, s + n, SpeciesLabel(species[n]))
  }

  /** The smallest offset n >= from whose slot s + n does not hold species n. */
  function FirstMismatch(names: seq<string>, species: seq<string>, s: nat, from: nat): (r: Option<nat>)
    requires from <= |species|
    decreases |species| - from
    ensures r.Some? ==> from <= r.value < |species|
    ensures r.Some? ==> !SlotHolds(names, s + r.value, SpeciesLabel(species[r.value]))
    ensures forall n :: from <= n < (if r.Some? then r.value else |species|) ==>
              SlotHolds(names, s + n, SpeciesLabel(species[n]))
  {
    if from == |species| then None
    else if !SlotHolds(names, s + from, SpeciesLabel(species[from])) then Some(from)
    else FirstMismatch(names, species, s, from + 1)
  }

  /** `e` is the abort raised at the first bad slot of the block starting at `s`. */
  predicate ReportsFirstBadSlot(names: seq<string>, species: seq<string>, s: nat, e: Fatal) {
    (e.SpeciesMismatch? || e.SpeciesBlockTruncated?) &&
    0 < e.offset < |species| &&
    (forall n :: 0 <= n < e.offset ==> SlotHolds(names, s + n, SpeciesLabel(species[n]))) &&
    if s + e.offset < |names| then
      names[s + e.offset] != SpeciesLabel(species[e.offset]) &&
      e == SpeciesMismatch(e.offset, SpeciesLabel(species[e.offset]), names[s + e.offset])
    else
      e == SpeciesBlockTruncated(e.offset)
  }

  /**
   * What `get_spec_index` computes: the first slot of species 0, provided the
   * whole compiled species list follows from there in order.
   */
  function SpecIndex(names: seq<string>, species: seq<string>): (r: Result<nat, Fatal>)
    requires |species| > 0
    ensures r.Success? ==> IsFirst(names, SpeciesLabel(species[0]), r.value) && BlockAt(names, species, r.value)
    ensures r == Failure(FirstSpeciesNotFound) <==> SpeciesLabel(species[0]) !in names
    ensures forall s :: IsFirst(names, SpeciesLabel(species[0]), s) ==>
              (r.Success? <==> BlockAt(names, species, s)) &&
              (r.Failure? ==> ReportsFirstBadSlot(names, species, s, r.error))
  {
    match Find(names, SpeciesLabel(species[0]))
    case None => Failure(FirstSpeciesNotFound)
    case Some(s) =>
      match FirstMismatch(names, species, s, 0)
      case None => Success(s)
      case Some(n) =>
        if s + n < |names| then Failure(SpeciesMismatch(n, SpeciesLabel(species[n]), names[s + n]))
        else Failure(SpeciesBlockTruncated(n))
  }

  /**
   * `get_spec_index`: find the first species, then walk n = 0 .. NumSpec-1
   * comparing slot spec_comp + n with the compiled label, aborting at the
   * first difference. A slot past the end of the list aborts as well.
   */
  method GetSpecIndex(names: seq<string>, species: seq<string>) returns (r: Result<nat, Fatal>)
    requires |species| > 0
    ensures r == SpecIndex(names, species)
  {
    var first := Find(names, SpeciesLabel(species[0]));
    if first.None? {
      return Failure(FirstSpeciesNotFound);
    }
    var specComp := first.value;
    var n := 0;
    while n < |species|
      invariant 0 <= n <= |species|
      invariant FirstMismatch(names, species, specComp, n) == FirstMismatch(names, species, specComp, 0)
    {
      var current := SpeciesLabel(species[n]);
      if specComp + n >= |names| {
        return Failure(SpeciesBlockTruncated(n));
      }
      if current != names[specComp + n] {
        return Failure(SpeciesMismatch(n, current, names[specComp + n]));
      }
      n := n + 1;
    }
    r := Success(specComp);
  }
}

=== FILE: boundary.dfy ===
/**
 * The boundary policy both diagnostics build before filling any level:
 * one `BCRec`, the periodicity flags and the ghost width, per compiled axis.
 */
module Boundary {

  import opened Hierarchy

  /** The AMReX boundary types in play; `Bogus` is what a fresh `BCRec` holds. */
  datatype BCType = Bogus | HoExtrapCC | IntDir

  datatype BCRec = BCRec(lo: seq<BCType>, hi: seq<BCType>)

  /** `bcr_default`, `is_periodic` and `ng` after the policy loop. */
  datatype Policy = Policy(bcr: BCRec, isPeriodic: seq<int>, ng: IntVect)

  /**
   * Active axes (below `ndims`) extrapolate on both faces, are not periodic
   * and get one ghost cell; the remaining axes are periodic interior
   * boundaries with no ghost cells.
   */
  predicate IsPolicyFor(p: Policy, ndims: nat, amrexDim: nat) {
    |p.bcr.lo| == amrexDim && |p.bcr.hi| == amrexDim &&
    |p.isPeriodic| == amrexDim && |p.ng| == amrexDim &&
    forall idim :: 0 <= idim < amrexDim ==>
      if idim < ndims then
        p.bcr.lo[idim] == HoExtrapCC && p.bcr.hi[idim] == HoExtrapCC &&
        p.isPeriodic[idim] == 0 && p.ng[idim] == 1
      else
        p.bcr.lo[idim] == IntDir && p.bcr.hi[idim] == IntDir &&
        p.isPeriodic[idim] == 1 && p.ng[idim] == 0
  }

  /**
   * The loop over idim: start from a default `BCRec`, `is_periodic` all 0 and
   * `ng(1)`, then set each axis according to `idim < ndims`.
   */
  method InterpretBoundaries(ndims: nat, amrexDim: nat) returns (p: Policy)
    ensures IsPolicyFor(p, ndims, amrexDim)
  {
    var lo := seq(amrexDim, _ => Bogus);
    var hi := seq(amrexDim, _ => Bogus);
    var isPeriodic := seq(amrexDim, _ => 0);
    var ng := seq(amrexDim, _ => 1);
    for idim := 0 to amrexDim
      invariant |lo| == |hi| == |isPeriodic| == |ng| == amrexDim
      invariant forall d :: 0 <= d < idim && d < ndims ==>
                  lo[d] == HoExtrapCC && hi[d] == HoExtrapCC && isPeriodic[d] == 0 && ng[d] == 1
      invariant forall d :: ndims <= d < idim ==>
                  lo[d] == IntDir && hi[d] == IntDir && isPeriodic[d] == 1 && ng[d] == 0
      invariant forall d :: idim <= d < amrexDim ==>
                  lo[d] == Bogus && hi[d] == Bogus && isPeriodic[d] == 0 && ng[d] == 1
    {
      if idim < ndims {
        lo := lo[idim := HoExtrapCC];
        hi := hi[idim := HoExtrapCC];
      } else {
        lo := lo[idim := IntDir];
        hi := hi[idim := IntDir];
        isPeriodic := isPeriodic[idim := 1];
        ng := ng[idim := 0];
      }
    }
    p := Policy(BCRec(lo, hi), isPeriodic, ng);
  }

  /** The policy is a function of `ndims`: the one record every fill at every level reuses. */
  lemma PolicyIsUnique(p: Policy, q: Policy, ndims: nat, amrexDim: nat)
    requires IsPolicyFor(p, ndims, amrexDim) && IsPolicyFor(q, ndims, amrexDim)
    ensures p == q
  {
  }

  /**
   * An inactive axis is degenerate three ways at once: periodic, no ghost
   * cells, and a refinement ratio of 1 whatever the plotfile states.
   */
  lemma InactiveAxesAreDegenerate(p: Policy, ratio: IntVect, ndims: nat, amrexDim: nat)
    requires IsPolicyFor(p, ndims, amrexDim) && |ratio| == amrexDim
    ensures forall idim :: ndims <= idim < amrexDim ==>
              p.isPeriodic[idim] == 1 && p.ng[idim] == 0 && Truncated(ratio, ndims)[idim] == 1
    ensures forall idim :: 0 <= idim < ndims && idim < amrexDim ==>
              p.isPeriodic[idim] == 0 && p.ng[idim] == 1 && Truncated(ratio, ndims)[idim] == ratio[idim]
  {
  }
}

=== FILE: convective_grad.dfy ===
/**
 * The `convective_grad` diagnostic (convective_grad/main.cpp): an inlined
 * copy of the resolver (with "p0" as the pressure alias), ghost-padded
 * T and P per level, the centred gradient (dT/dP)(P/T) along the vertical
 * axis, written to "convgrad.<plotfile name>".
 */
module ConvectiveGrad {

  import opened Wrappers
  import opened Lookup
  import opened Errors
  import opened AstroUtil
  import opened Paths
  import opened Hierarchy
  import opened Boundary
  import opened FillPlan

  /** dens_comp, temp_comp, pres_comp, spec_comp. */
  datatype Comps = Comps(dens: nat, temp: nat, pres: nat, spec: nat)

  /** The four lookups in order; the first failure aborts. */
  function Fields(names: seq<string>, species: seq<string>): (r: Result<Comps, Fatal>)
    requires |species| > 0
    ensures !("density" in names || "rho" in names) ==> r == Failure(DensityNotFound)
    ensures ("density" in names || "rho" in names) && !("Temp" in names || "tfromp" in names) ==>
              r == Failure(TemperatureNotFound)
    ensures (("density" in names || "rho" in names) && ("Temp" in names || "tfromp" in names) &&
             !("pressure" in names || "p0" in names)) ==> r == Failure(PressureNotFound)
    ensures (("density" in names || "rho" in names) && ("Temp" in names || "tfromp" in names) &&
             ("pressure" in names || "p0" in names) && SpecIndex(names, species).Failure?) ==>
              r == Failure(SpecIndex(names, species).error)
    ensures r.Success? ==> NamesQuantities(names, species, r.value)
  {
    var dens :- GetDensIndex(names);
    var temp :- GetTempIndex(names);
    var pres :- match FindEither(names, "pressure", "p0")
                case Some(i) => Success(i)
                case None => Failure(PressureNotFound);
    var spec :- SpecIndex(names, species);
    Success(Comps(dens, temp, pres, spec))
  }

  /**
   * The inlined resolver: one iterator `idx` reassigned by successive
   * `std::find` calls, then the same species walk as `get_spec_index`.
   */
  method ResolveFields(names: seq<string>, species: seq<string>) returns (r: Result<Comps, Fatal>)
    requires |species| > 0
    ensures r == Fields(names, species)
  {
    var idx := Find(names, "density");
    if idx.None? {
      idx := Find(names, "rho");
      if idx.None? {
        return Failure(DensityNotFound);
      }
    }
    var dens := idx.value;

    idx := Find(names, "Temp");
    if idx.None? {
      idx := Find(names, "tfromp");
      if idx.None? {
        return Failure(TemperatureNotFound);
      }
    }
    var temp := idx.value;

    idx := Find(names, "pressure");
    if idx.None? {
      idx := Find(names, "p0");
      if idx.None? {
        return Failure(PressureNotFound);
      }
    }
    var pres := idx.value;

    var spec :- GetSpecIndex(names, species);
    r := Success(Comps(dens, temp, pres, spec));
  }

  /** Every resolved slot holds the quantity it stands for. */
  predicate NamesQuantities(names: seq<string>, species: seq<string>, c: Comps) {
    c.dens < |names| && (names[c.dens] == "density" || names[c.dens] == "rho") &&
    c.temp < |names| && (names[c.temp] == "Temp" || names[c.temp] == "tfromp") &&
    c.pres < |names| && (names[c.pres] == "pressure" || names[c.pres] == "p0") &&
    BlockAt(names, species, c.spec)
  }

  /**
   * Resolution succeeds exactly when each quantity or its alias is present
   * and the species block is intact; density, temperature and species agree
   * with the shared header, and so does pressure whenever "pressure" itself
   * is present.
   */
  lemma FieldsAgreeWithHeader(names: seq<string>, species: seq<string>)
    requires |species| > 0
    ensures Fields(names, species).Success? <==>
              ("density" in names || "rho" in names) &&
              ("Temp" in names || "tfromp" in names) &&
              ("pressure" in names || "p0" in names) &&
              SpecIndex(names, species).Success?
    ensures Fields(names, species).Success? ==>
              var c := Fields(names, species).value;
              NamesQuantities(names, species, c) &&
              Success(c.dens) == GetDensIndex(names) &&
              Success(c.temp) == GetTempIndex(names) &&
              Success(c.spec) == SpecIndex(names, species) &&
              ("pressure" in names ==> Success(c.pres) == GetPresIndex(names))
  {
  }

  /** The two pressure aliases really differ: each tool rejects a file the other accepts. */
  lemma PressureAliasDiffersFromHeader()
    ensures GetPresIndex(["p0pluspi"]) == Success(0)
    ensures Fields(["density", "Temp", "p0pluspi", "X(he4)"], ["he4"]) == Failure(PressureNotFound)
    ensures GetPresIndex(["p0"]) == Failure(PressureNotFound)
    ensures Fields(["density", "Temp", "p0", "X(he4)"], ["he4"]) == Success(Comps(0, 1, 2, 3))
  {
    var withP0 := ["density", "Temp", "p0", "X(he4)"];
    assert withP0[3] == SpeciesLabel("he4");
    assert IsFirst(withP0, SpeciesLabel("he4"), 3);
    var withPi := ["density", "Temp", "p0pluspi", "X(he4)"];
    assert "p0" !in withPi;
  }

  /** The output name: "convgrad." and the last component of the path, one trailing '/' removed. */
  function OutputName(plotfile: string): (r: string)
    requires plotfile != []
    ensures |r| >= 9 && r[..9] == "convgrad."
    ensures '/' !in r[9..]
  {
    var name := LastComponent(StripTrailingSlash(plotfile));
    assert ("convgrad." + name)[9..] == name;
    "convgrad." + name
  }

  /** "dir/plt" and "dir/plt/" give "convgrad.plt"; "dir/plt//" gives just "convgrad.". */
  lemma OutputNameIsBaseName(dir: string, base: string)
    requires base != [] && '/' !in base
    ensures OutputName(dir + "/" + base) == "convgrad." + base
    ensures OutputName(dir + "/" + base + "/") == "convgrad." + base
    ensures OutputName(dir + "/" + base + "//") == "convgrad."
  {
    var p := dir + "/" + base;
    assert (p + "/")[..|p|] == p;
    assert (p + "//")[..|p| + 1] == p + "/";
    assert StripTrailingSlash(p) == p by {
      assert p[|p| - 1] == base[|base| - 1];
    }
    LastComponentAfterSlash(dir, base);
  }

  /** A bare name with no directory, as in `diag.plotfile=plt00000`, gives "convgrad." + name. */
  lemma OutputNameOfBareName(base: string)
    requires base != [] && '/' !in base
    ensures OutputName(base) == "convgrad." + base
    ensures OutputName(base + "/") == "convgrad." + base
  {
    assert (base + "/")[..|base|] == base;
  }

  /** What the T and P buffers of every level must be filled from. */
  function Targets(c: Comps): seq<Target> {
    [Target(TempBuf, 0, c.temp), Target(PresBuf, 0, c.pres)]
  }

  /**
   * The fill block of one level as written: at level 0 the pressure buffer
   * comes from pres_comp, but above level 0 both its coarse and its fine
   * source are temp_comp.
   */
  function LevelFillsAsWritten(ilev: nat, c: Comps, ratio: IntVect): (ops: seq<FillOp>)
    ensures |ops| == 2 && forall k :: 0 <= k < 2 ==> FilledFromLevel(ops[k].src, ilev, ratio)
  {
    [FillOp(TempBuf, 0, FillAt(ilev, c.temp, ratio)),
     FillOp(PresBuf, 0, FillAt(ilev, if ilev == 0 then c.pres else c.temp, ratio))]
  }

  /**
   * Above level 0 the as-written pressure buffer holds temperature: on every
   * plotfile the resolver accepts, the slot it is filled from is "Temp" or
   * "tfromp", never a pressure field, so the plan misses its target.
   */
  lemma AsWrittenPressureBufferHoldsTemperature(names: seq<string>, species: seq<string>, c: Comps,
                                                ilev: nat, ratio: IntVect)
    requires |species| > 0 && Fields(names, species) == Success(c) && ilev > 0
    ensures var src := LevelFillsAsWritten(ilev, c, ratio)[1];
            src.dest == PresBuf && SourceComp(src.src) < |names| &&
            (names[SourceComp(src.src)] == "Temp" || names[SourceComp(src.src)] == "tfromp")
    ensures !LevelPlanned(LevelFillsAsWritten(ilev, c, ratio), ilev, ratio, Targets(c))
  {
  }

  /** At level 0 the as-written block is right. */
  lemma AsWrittenLevelZeroIsPlanned(c: Comps, ratio: IntVect)
    ensures LevelPlanned(LevelFillsAsWritten(0, c, ratio), 0, ratio, Targets(c))
  {
  }

  /** The fill block of one level with pres_comp as the pressure source at every level. */
  function LevelFills(ilev: nat, c: Comps, ratio: IntVect): (ops: seq<FillOp>)
    ensures LevelPlanned(ops, ilev, ratio, Targets(c))
  {
    var ops := [FillOp(TempBuf, 0, FillAt(ilev, c.temp, ratio)),
                FillOp(PresBuf, 0, FillAt(ilev, c.pres, ratio))];
    assert TargetOf(ops[0]) == Targets(c)[0];
    assert TargetOf(ops[1]) == Targets(c)[1];
    ops
  }

  /** With the corrected block, the pressure buffer holds pressure at every level. */
  lemma PressureBufferHoldsPressure(names: seq<string>, species: seq<string>, c: Comps,
                                    ilev: nat, ratio: IntVect)
    requires |species| > 0 && Fields(names, species) == Success(c)
    ensures var src := LevelFills(ilev, c, ratio)[1];
            src.dest == PresBuf && SourceComp(src.src) < |names| &&
            (names[SourceComp(src.src)] == "pressure" || names[SourceComp(src.src)] == "p0")
  {
  }

  /**
   * The vertical axis of a plane-parallel dataset: x in 1-d, y in 2-d, z
   * otherwise. For 1 to 3 active dimensions it is the last active axis.
   */
  function VerticalAxis(ndims: nat): (v: nat)
    ensures v <= 2
    ensures 1 <= ndims <= 3 ==> v == ndims - 1 < ndims
  {
    if ndims == 1 then 0 else if ndims == 2 then 1 else 2
  }

  /** The reads of the gradient kernel: T and P at the cell and its two vertical neighbours. */
  function KernelReads(ndims: nat, amrexDim: nat): (r: seq<CellRead>)
    ensures |r| == 6
    ensures forall k :: 0 <= k < |r| ==> r[k].data.Padded? && r[k].comp == 0 && |r[k].offset| == amrexDim
    ensures forall k, d :: 0 <= k < |r| && 0 <= d < amrexDim && d != VerticalAxis(ndims) ==> r[k].offset[d] == 0
    ensures forall k :: 0 <= k < |r| && VerticalAxis(ndims) < amrexDim ==> -1 <= r[k].offset[VerticalAxis(ndims)] <= 1
    ensures forall k :: 0 <= k < |r| ==> r[k].data.buf in {TempBuf, PresBuf}
    ensures forall b, d :: b in {TempBuf, PresBuf} && d in {-1, 0, 1} ==>
              CellRead(Padded(b), 0, AxisOffset(amrexDim, VerticalAxis(ndims), d)) in r
  {
    var v := VerticalAxis(ndims);
    var rs := [CellRead(Padded(TempBuf), 0, AxisOffset(amrexDim, v, 1)),
               CellRead(Padded(TempBuf), 0, AxisOffset(amrexDim, v, -1)),
               CellRead(Padded(PresBuf), 0, AxisOffset(amrexDim, v, 1)),
               CellRead(Padded(PresBuf), 0, AxisOffset(amrexDim, v, -1)),
               CellRead(Padded(PresBuf), 0, Here(amrexDim)),
               CellRead(Padded(TempBuf), 0, Here(amrexDim))];
    assert Here(amrexDim) == AxisOffset(amrexDim, v, 0);
    assert rs[4].offset == AxisOffset(amrexDim, v, 0) && rs[5].offset == AxisOffset(amrexDim, v, 0);
    rs
  }

  /**
   * The stencil stays inside the padded buffers: with the boundary policy of
   * a 1- to 3-dimensional dataset, every offset it reads is within the ghost
   * width on every axis (one cell vertically, none on inactive axes).
   */
  lemma StencilWithinGhostCells(p: Policy, ndims: nat, amrexDim: nat)
    requires 1 <= ndims <= 3 && ndims <= amrexDim && IsPolicyFor(p, ndims, amrexDim)
    ensures forall rd :: rd in KernelReads(ndims, amrexDim) ==>
              rd.data.Padded? && rd.comp == 0 && |rd.offset| == amrexDim &&
              forall d :: 0 <= d < amrexDim ==> -p.ng[d] <= rd.offset[d] <= p.ng[d]
  {
  }

  /** `gvarnames`: two declared fields. */
  function VarNames(): seq<string> {
    ["del", "del_ad"]
  }

  /** The only component the kernel writes, `ga(i,j,k,0)`. */
  const WrittenComp: nat := 0

  /** "del" is written; the declared "del_ad" component is never written by the kernel. */
  lemma DelAdIsNeverWritten()
    ensures VarNames()[WrittenComp] == "del"
    ensures forall k :: 0 <= k < |VarNames()| && k != WrittenComp ==> VarNames()[k] == "del_ad"
  {
  }

  /**
   * The centred estimate of dlnT/dlnP: (T[+1] - T[-1]) / (P[+1] - P[-1]) * (P / T),
   * over exact reals and only where both divisions are defined.
   */
  function DelGradient(tMinus: real, t: real, tPlus: real, pMinus: real, p: real, pPlus: real): (r: real)
    requires pPlus != pMinus && t != 0.0
    ensures r * (pPlus - pMinus) * t == (tPlus - tMinus) * p
  {
    var q := (tPlus - tMinus) / (pPlus - pMinus);
    assert q * (pPlus - pMinus) == tPlus - tMinus;
    var s := p / t;
    assert s * t == p;
    q * s
  }

  /** The loop over levels, coarse to fine, each with its own fill block. */
  method PlanLevels(pf: PlotFile, amrexDim: nat, comps: Comps) returns (fills: seq<seq<FillOp>>)
    requires WellFormed(pf, amrexDim)
    ensures |fills| == NumLevels(pf)
    ensures forall l :: 0 <= l < |fills| ==> LevelPlanned(fills[l], l, LevelRatio(pf, l), Targets(comps))
  {
    fills := [];
    for ilev := 0 to NumLevels(pf)
      invariant |fills| == ilev
      invariant forall l :: 0 <= l < ilev ==> LevelPlanned(fills[l], l, LevelRatio(pf, l), Targets(comps))
    {
      var ratio: IntVect := [];
      if ilev > 0 {
        ratio := TruncateRatio(pf.refRatio[ilev - 1], pf.spaceDim);
      }
      assert ratio == LevelRatio(pf, ilev);
      var ops := LevelFills(ilev, comps, ratio);
      assert LevelPlanned(ops, ilev, LevelRatio(pf, ilev), Targets(comps));
      ghost var before := fills;
      fills := fills + [ops];
      assert forall l :: 0 <= l < ilev ==> fills[l] == before[l];
    }
  }

  /** What one successful run hands to `WriteMultiLevelPlotfile`, plus the plan that fed it. */
  datatype Run = Run(
    outfile: string,
    comps: Comps,
    varNames: seq<string>,
    policy: Policy,
    fills: seq<seq<FillOp>>,   // fills[ilev]: the fill block of level ilev
    levelSteps: seq<int>,
    refRatios: seq<IntVect>)

  /** A run over `pf` that did everything `main_main` does after the lookups. */
  predicate RunFor(run: Run, plotfile: string, pf: PlotFile, species: seq<string>, amrexDim: nat)
    requires plotfile != [] && |species| > 0 && WellFormed(pf, amrexDim)
  {
    run.outfile == OutputName(plotfile) &&
    Success(run.comps) == Fields(pf.varNames, species) &&
    run.varNames == VarNames() &&
    IsPolicyFor(run.policy, pf.spaceDim, amrexDim) &&
    |run.fills| == NumLevels(pf) &&
    (forall ilev :: 0 <= ilev < |run.fills| ==>
       LevelPlanned(run.fills[ilev], ilev, LevelRatio(pf, ilev), Targets(run.comps))) &&
    MetadataFor(run.levelSteps, run.refRatios, pf) &&
    forall ilev, k :: 0 < ilev < |run.fills| && 0 <= k < |run.fills[ilev]| ==>
      run.fills[ilev][k].src.TwoLevels? && run.fills[ilev][k].src.ratio == run.refRatios[ilev - 1]
  }

  /**
   * `main_main` with the corrected pressure fill: output name, the
   * dimensionality assert, the inlined resolver, the boundary policy, the
   * per-level fills and the output metadata.
   */
  method MainMain(plotfile: string, pf: PlotFile, species: seq<string>, amrexDim: nat) returns (r: Result<Run, Fatal>)
    requires plotfile != []
    requires |species| > 0 && WellFormed(pf, amrexDim)
    ensures pf.spaceDim > amrexDim ==> r == Failure(SpaceDimTooLarge(pf.spaceDim))
    ensures pf.spaceDim <= amrexDim ==>
              (r.Success? <==> Fields(pf.varNames, species).Success?) &&
              (r.Failure? ==> r.error == Fields(pf.varNames, species).error)
    ensures r.Success? ==> RunFor(r.value, plotfile, pf, species, amrexDim)
  {
    var outfile := OutputName(plotfile);

    var ndims := pf.spaceDim;
    if ndims > amrexDim {
      return Failure(SpaceDimTooLarge(ndims));
    }

    var comps :- ResolveFields(pf.varNames, species);

    var policy := InterpretBoundaries(ndims, amrexDim);

    var fills := PlanLevels(pf, amrexDim, comps);

    var levelSteps, refRatios := AssembleMetadata(pf, amrexDim);
    FillRatiosAreWrittenRatios(pf, fills, Targets(comps), levelSteps, refRatios);
    var run := Run(outfile, comps, VarNames(), policy, fills, levelSteps, refRatios);
    assert RunFor(run, plotfile, pf, species, amrexDim);
    r := Success(run);
  }
}

=== FILE: errors.dfy ===
/**
 * Every way a diagnostic run aborts. Each case but one stands for one
 * `amrex::Error` call (or the `AMREX_ALWAYS_ASSERT` on the dimensionality);
 * the printed text is not modelled, only which abort is taken and the data it
 * reports. `SpeciesBlockTruncated` is the exception: the code reads
 * `var_names_pf[spec_comp+n]` without a bounds check, which is undefined
 * behaviour past the end of the list, and the model stops there instead.
 */
module Errors {

  datatype Fatal =
    | NoPlotfile                   // "no plotfile"
    | SpaceDimTooLarge(ndims: nat) // ndims <= AMREX_SPACEDIM fails
    | DensityNotFound
    | TemperatureNotFound
    | PressureNotFound
    | FirstSpeciesNotFound
      // slot spec_comp + offset holds `found` where `expected` was compiled in
    | SpeciesMismatch(offset: nat, expected: string, found: string)
      // slot spec_comp + offset lies past the end of the variable list
    | SpeciesBlockTruncated(offset: nat)
    | VelyNotFound
    | TpertNotFound
}

=== FILE: fill_plan.dfy ===
/**
 * The level reconstruction, as a plan: which `FillPatchSingleLevel` /
 * `FillPatchTwoLevels` call fills which ghost-padded buffer component from
 * which plotfile slot. The fills themselves (extrapolation, conservative
 * interpolation) are AMReX library code and stay opaque.
 *
 * Also the per-cell reads of the diagnostic kernels, as records of which
 * array, which component and which offset from the cell.
 */
module FillPlan {

  import opened Hierarchy

  /** The ghost-padded MultiFabs the two tools allocate per level. */
  datatype Buffer = TempBuf | PresBuf | SpeciesBuf | VyBuf | DTBuf

  /** Where one fill takes its data from: plotfile components at given levels. */
  datatype Source =
    | SingleLevel(level: nat, comp: nat)
    | TwoLevels(coarseLevel: nat, coarseComp: nat, fineLevel: nat, fineComp: nat, ratio: IntVect)

  /** One FillPatch call: buffer component `destComp` of `dest` is filled from `src`. */
  datatype FillOp = FillOp(dest: Buffer, destComp: nat, src: Source)

  /** The refinement ratio a level-`ilev` fill interpolates with (unused at level 0). */
  function LevelRatio(pf: PlotFile, ilev: nat): IntVect
    requires ilev <= |pf.refRatio|
  {
    if ilev == 0 then [] else Truncated(pf.refRatio[ilev - 1], pf.spaceDim)
  }

  /**
   * The reconstruction contract for one fill at level `ilev`: level 0 from
   * its own data only; level k > 0 from coarse level k - 1 and fine level k,
   * the same component on both, at the truncated ratio.
   */
  predicate FilledFromLevel(src: Source, ilev: nat, ratio: IntVect) {
    if ilev == 0 then
      src.SingleLevel? && src.level == 0
    else
      src.TwoLevels? && src.coarseLevel == ilev - 1 && src.fineLevel == ilev &&
      src.coarseComp == src.fineComp && src.ratio == ratio
  }

  /** The plotfile component a fill reads at the level being filled. */
  function SourceComp(src: Source): nat {
    match src
    case SingleLevel(_, c) => c
    case TwoLevels(_, _, _, c, _) => c
  }

  /** The fill of component `comp` at level `ilev`, as every fill in both tools is written. */
  function FillAt(ilev: nat, comp: nat, ratio: IntVect): (src: Source)
    ensures FilledFromLevel(src, ilev, ratio) && SourceComp(src) == comp
  {
    if ilev == 0 then SingleLevel(0, comp) else TwoLevels(ilev - 1, comp, ilev, comp, ratio)
  }

  /** What a fill achieves: buffer, buffer component, plotfile component. */
  datatype Target = Target(dest: Buffer, destComp: nat, comp: nat)

  function TargetOf(op: FillOp): Target {
    Target(op.dest, op.destComp, SourceComp(op.src))
  }

  /** `ops` fills exactly `targets`, in order, each by the level-`ilev` contract. */
  predicate LevelPlanned(ops: seq<FillOp>, ilev: nat, ratio: IntVect, targets: seq<Target>) {
    |ops| == |targets| &&
    forall k :: 0 <= k < |ops| ==> TargetOf(ops[k]) == targets[k] && FilledFromLevel(ops[k].src, ilev, ratio)
  }

  /**
   * Across a whole run: every level above 0 interpolates with exactly the
   * ratio written to the output's `ref_ratio` for the level below it.
   */
  lemma FillRatiosAreWrittenRatios(pf: PlotFile, fills: seq<seq<FillOp>>, targets: seq<Target>,
                                   levelSteps: seq<int>, refRatios: seq<IntVect>)
    requires |fills| == NumLevels(pf) && |pf.refRatio| == pf.finestLevel
    requires forall l :: 0 <= l < |fills| ==> LevelPlanned(fills[l], l, LevelRatio(pf, l), targets)
    requires MetadataFor(levelSteps, refRatios, pf)
    ensures forall ilev, k :: 0 < ilev < |fills| && 0 <= k < |fills[ilev]| ==>
              fills[ilev][k].src.TwoLevels? && fills[ilev][k].src.ratio == refRatios[ilev - 1]
  {
  }

  /** The arrays a kernel reads: the level's unpadded data, or a padded buffer. */
  datatype ArrayRef = LevelData | Padded(buf: Buffer)

  /** One read `A(i + offset, comp)` made by the kernel at cell i. */
  datatype CellRead = CellRead(data: ArrayRef, comp: nat, offset: IntVect)

  /** The offset `delta` along `axis` and 0 elsewhere. */
  function AxisOffset(amrexDim: nat, axis: nat, delta: int): (o: IntVect)
    ensures |o| == amrexDim
  {
    seq(amrexDim, a requires 0 <= a < amrexDim => if a == axis then delta else 0)
  }

  /** The cell itself. */
  function Here(amrexDim: nat): (o: IntVect)
    ensures |o| == amrexDim
  {
    seq(amrexDim, _ => 0)
  }
}

=== FILE: fluxes.dfy ===
/**
 * The `fluxes` diagnostic (fluxes/main.cpp): resolves density, temperature,
 * pressure, the species block, vertical velocity and temperature
 * perturbation; fills ghost-padded copies of T, P, X, vy and dT level by
 * level; evaluates Fconv = rho cp vy dT per cell; writes "<plotfile>/fluxes".
 */
module Fluxes {

  import opened Wrappers
  import opened Lookup
  import opened Errors
  import opened AstroUtil
  import opened Paths
  import opened Hierarchy
  import opened Boundary
  import opened FillPlan

  /** `get_vy_index`: "vely", with no alias. */
  function GetVyIndex(names: seq<string>): (r: Result<nat, Fatal>)
    ensures r.Success? <==> "vely" in names
    ensures r.Success? ==> IsFirst(names, "vely", r.value)
    ensures r.Failure? ==> r.error == VelyNotFound
  {
    match Find(names, "vely")
    case Some(i) => Success(i)
    case None => Failure(VelyNotFound)
  }

  /** `get_dT_index`: "tpert", with no alias. */
  function GetDTIndex(names: seq<string>): (r: Result<nat, Fatal>)
    ensures r.Success? <==> "tpert" in names
    ensures r.Success? ==> IsFirst(names, "tpert", r.value)
    ensures r.Failure? ==> r.error == TpertNotFound
  {
    match Find(names, "tpert")
    case Some(i) => Success(i)
    case None => Failure(TpertNotFound)
  }

  /** The resolved slots: dens_comp, temp_comp, pres_comp, spec_comp, vy_comp, dT_comp. */
  datatype Comps = Comps(dens: nat, temp: nat, pres: nat, spec: nat, vy: nat, dT: nat)

  /** The six lookups of `main_main`, in order; the first failure aborts. */
  function Fields(names: seq<string>, species: seq<string>): (r: Result<Comps, Fatal>)
    requires |species| > 0
    ensures !("density" in names || "rho" in names) ==> r == Failure(DensityNotFound)
    ensures ("density" in names || "rho" in names) && !("Temp" in names || "tfromp" in names) ==>
              r == Failure(TemperatureNotFound)
    ensures (("density" in names || "rho" in names) && ("Temp" in names || "tfromp" in names) &&
             !("pressure" in names || "p0pluspi" in names)) ==> r == Failure(PressureNotFound)
    ensures r.Failure? && r.error.VelyNotFound? ==> SpecIndex(names, species).Success? && "vely" !in names
    ensures r.Failure? && r.error.TpertNotFound? ==> "vely" in names && "tpert" !in names
    ensures (("density" in names || "rho" in names) && ("Temp" in names || "tfromp" in names) &&
             ("pressure" in names || "p0pluspi" in names)) ==>
              (SpecIndex(names, species).Failure? ==> r == Failure(SpecIndex(names, species).error)) &&
              (SpecIndex(names, species).Success? && "vely" !in names ==> r == Failure(VelyNotFound)) &&
              (SpecIndex(names, species).Success? && "vely" in names && "tpert" !in names ==>
                 r == Failure(TpertNotFound))
    ensures r.Success? ==> NamesQuantities(names, species, r.value)
    ensures r.Success? ==>
              Success(r.value.dens) == GetDensIndex(names) && Success(r.value.temp) == GetTempIndex(names) &&
              Success(r.value.pres) == GetPresIndex(names) && Success(r.value.spec) == SpecIndex(names, species) &&
              Success(r.value.vy) == GetVyIndex(names) && Success(r.value.dT) == GetDTIndex(names)
  {
    var dens :- GetDensIndex(names);
    var temp :- GetTempIndex(names);
    var pres :- GetPresIndex(names);
    var spec :- SpecIndex(names, species);
    var vy :- GetVyIndex(names);
    var dT :- GetDTIndex(names);
    Success(Comps(dens, temp, pres, spec, vy, dT))
  }

  /** Every resolved slot holds the quantity it stands for. */
  predicate NamesQuantities(names: seq<string>, species: seq<string>, c: Comps) {
    c.dens < |names| && (names[c.dens] == "density" || names[c.dens] == "rho") &&
    c.temp < |names| && (names[c.temp] == "Temp" || names[c.temp] == "tfromp") &&
    c.pres < |names| && (names[c.pres] == "pressure" || names[c.pres] == "p0pluspi") &&
    BlockAt(names, species, c.spec) &&
    c.vy < |names| && names[c.vy] == "vely" &&
    c.dT < |names| && names[c.dT] == "tpert"
  }

  /** Resolution succeeds exactly when every quantity is present and the species block is intact. */
  lemma FieldsSucceedIff(names: seq<string>, species: seq<string>)
    requires |species| > 0
    ensures Fields(names, species).Success? <==>
              ("density" in names || "rho" in names) &&
              ("Temp" in names || "tfromp" in names) &&
              ("pressure" in names || "p0pluspi" in names) &&
              SpecIndex(names, species).Success? &&
              "vely" in names && "tpert" in names
    ensures Fields(names, species).Success? ==> NamesQuantities(names, species, Fields(names, species).value)
  {
  }

  /** The output path: an empty plotfile name aborts; else one trailing '/' goes, then "/fluxes". */
  function OutputPath(plotfile: string): (r: Result<string, Fatal>)
    ensures r.Failure? <==> plotfile == []
    ensures r.Failure? ==> r.error == NoPlotfile
    ensures r.Success? ==> r.value == StripTrailingSlash(plotfile) + "/fluxes"
  {
    if plotfile == [] then Failure(NoPlotfile)
    else Success(StripTrailingSlash(plotfile) + "/fluxes")
  }

  /** "plt/" and "plt" name the same output; a second trailing slash is kept. */
  lemma OutputPathIgnoresOneTrailingSlash(p: string)
    requires p != [] && p[|p| - 1] != '/'
    ensures OutputPath(p + "/") == OutputPath(p) == Success(p + "/fluxes")
    ensures OutputPath(p + "//") == Success(p + "/" + "/fluxes")
  {
    assert (p + "/")[..|p|] == p;
    assert (p + "//")[..|p| + 1] == p + "/";
  }

  /** The fills of one level: T, P, each species n into component n, vy, dT. */
  function Targets(c: Comps, numSpec: nat): seq<Target> {
    [Target(TempBuf, 0, c.temp), Target(PresBuf, 0, c.pres)] +
    seq(numSpec, n requires 0 <= n < numSpec => Target(SpeciesBuf, n, c.spec + n)) +
    [Target(VyBuf, 0, c.vy), Target(DTBuf, 0, c.dT)]
  }

  /**
   * The fill block of one level: `FillPatchSingleLevel` at level 0,
   * `FillPatchTwoLevels` from levels ilev - 1 and ilev with the truncated
   * `refRatio(ilev - 1)` otherwise; the species one component at a time.
   */
  method LevelFills(pf: PlotFile, amrexDim: nat, ilev: nat, c: Comps, numSpec: nat) returns (ops: seq<FillOp>)
    requires WellFormed(pf, amrexDim) && ilev < NumLevels(pf)
    ensures LevelPlanned(ops, ilev, LevelRatio(pf, ilev), Targets(c, numSpec))
  {
    var ratio: IntVect := [];
    if ilev > 0 {
      ratio := TruncateRatio(pf.refRatio[ilev - 1], pf.spaceDim);
    }
    ghost var want := Targets(c, numSpec);
    ops := [FillOp(TempBuf, 0, FillAt(ilev, c.temp, ratio)), FillOp(PresBuf, 0, FillAt(ilev, c.pres, ratio))];
    for n := 0 to numSpec
      invariant |ops| == 2 + n
      invariant forall k :: 0 <= k < |ops| ==>
                  TargetOf(ops[k]) == want[k] && FilledFromLevel(ops[k].src, ilev, LevelRatio(pf, ilev))
    {
      ops := ops + [FillOp(SpeciesBuf, n, FillAt(ilev, c.spec + n, ratio))];
    }
    ops := ops + [FillOp(VyBuf, 0, FillAt(ilev, c.vy, ratio)), FillOp(DTBuf, 0, FillAt(ilev, c.dT, ratio))];
  }

  /** `gvarnames`: the single derived field. */
  function VarNames(): seq<string> {
    ["Fconv"]
  }

  /**
   * The reads of the per-cell kernel: rho, T, vy and dT from the unpadded
   * level data, each species from the padded X buffer, all at the cell itself.
   */
  function KernelReads(c: Comps, numSpec: nat, amrexDim: nat): (r: seq<CellRead>)
    ensures |r| == 4 + numSpec
    ensures forall k :: 0 <= k < |r| ==> r[k].offset == Here(amrexDim)
    ensures forall k :: 0 <= k < |r| ==> (r[k].data.Padded? <==> k >= 4)
  {
    [CellRead(LevelData, c.dens, Here(amrexDim)), CellRead(LevelData, c.temp, Here(amrexDim)),
     CellRead(LevelData, c.vy, Here(amrexDim)), CellRead(LevelData, c.dT, Here(amrexDim))] +
    seq(numSpec, n requires 0 <= n < numSpec => CellRead(Padded(SpeciesBuf), n, Here(amrexDim)))
  }

  /** The only component the kernel writes, `ga(i,j,k,0)`. */
  const WrittenComp: nat := 0

  /**
   * The flux kernel is pointwise: no neighbour is read, so the ghost cells
   * never matter to it; it reads only its four level-data slots and the
   * NumSpec species components; the component it writes is declared.
   */
  lemma KernelIsPointwise(c: Comps, numSpec: nat, amrexDim: nat)
    ensures forall rd :: rd in KernelReads(c, numSpec, amrexDim) ==> rd.offset == Here(amrexDim)
    ensures forall rd :: rd in KernelReads(c, numSpec, amrexDim) && rd.data.Padded? ==>
              rd.data.buf == SpeciesBuf && rd.comp < numSpec
    ensures forall rd :: rd in KernelReads(c, numSpec, amrexDim) && rd.data == LevelData ==>
              rd.comp in {c.dens, c.temp, c.vy, c.dT}
    ensures forall x :: x in {c.dens, c.temp, c.vy, c.dT} ==>
              CellRead(LevelData, x, Here(amrexDim)) in KernelReads(c, numSpec, amrexDim)
    ensures WrittenComp < |VarNames()|
  {
  }

  /** Resolution succeeding means the species block starts at the resolved slot. */
  lemma FieldsSpeciesBlock(names: seq<string>, species: seq<string>, c: Comps)
    requires |species| > 0 && Fields(names, species) == Success(c)
    ensures BlockAt(names, species, c.spec)
  {
  }

  /** The kernel hands species component n, read at the cell itself, to the EOS. */
  lemma KernelReadsEverySpecies(c: Comps, numSpec: nat, amrexDim: nat, n: nat)
    requires n < numSpec
    ensures CellRead(Padded(SpeciesBuf), n, Here(amrexDim)) in KernelReads(c, numSpec, amrexDim)
  {
    assert KernelReads(c, numSpec, amrexDim)[4 + n] == CellRead(Padded(SpeciesBuf), n, Here(amrexDim));
  }

  /**
   * End to end for the species: every species component n the kernel hands
   * to the EOS was filled, at every level, from the plotfile slot that holds
   * species n of the compiled network.
   */
  lemma KernelSpeciesComeFromNetworkSlots(names: seq<string>, species: seq<string>, c: Comps,
                                          ratio: IntVect, ilev: nat, ops: seq<FillOp>, amrexDim: nat)
    requires |species| > 0 && Fields(names, species) == Success(c)
    requires LevelPlanned(ops, ilev, ratio, Targets(c, |species|))
    ensures forall n :: 0 <= n < |species| ==>
              CellRead(Padded(SpeciesBuf), n, Here(amrexDim)) in KernelReads(c, |species|, amrexDim) &&
              ops[2 + n].dest == SpeciesBuf && ops[2 + n].destComp == n &&
              SourceComp(ops[2 + n].src) < |names| &&
              names[SourceComp(ops[2 + n].src)] == SpeciesLabel(species[n])
  {
    FieldsSpeciesBlock(names, species, c);
    var want := Targets(c, |species|);
    forall n | 0 <= n < |species|
      ensures CellRead(Padded(SpeciesBuf), n, Here(amrexDim)) in KernelReads(c, |species|, amrexDim)
      ensures ops[2 + n].dest == SpeciesBuf && ops[2 + n].destComp == n
      ensures SourceComp(ops[2 + n].src) < |names| && names[SourceComp(ops[2 + n].src)] == SpeciesLabel(species[n])
    {
      KernelReadsEverySpecies(c, |species|, amrexDim, n);
      assert want[2 + n] == Target(SpeciesBuf, n, c.spec + n);
      assert TargetOf(ops[2 + n]) == want[2 + n];
      assert SlotHolds(names, c.spec + n, SpeciesLabel(species[n]));
    }
  }

  /** The loop over levels, coarse to fine, each with its own fill block. */
  method PlanLevels(pf: PlotFile, amrexDim: nat, comps: Comps, numSpec: nat) returns (fills: seq<seq<FillOp>>)
    requires WellFormed(pf, amrexDim)
    ensures |fills| == NumLevels(pf)
    ensures forall l :: 0 <= l < |fills| ==> LevelPlanned(fills[l], l, LevelRatio(pf, l), Targets(comps, numSpec))
  {
    fills := [];
    for ilev := 0 to NumLevels(pf)
      invariant |fills| == ilev
      invariant forall l :: 0 <= l < ilev ==>
                  LevelPlanned(fills[l], l, LevelRatio(pf, l), Targets(comps, numSpec))
    {
      var ops := LevelFills(pf, amrexDim, ilev, comps, numSpec);
      fills := fills + [ops];
    }
  }

  /** What one successful run hands to `WriteMultiLevelPlotfile`, plus the plan that fed it. */
  datatype Run = Run(
    outfile: string,
    comps: Comps,
    varNames: seq<string>,
    policy: Policy,
    fills: seq<seq<FillOp>>,   // fills[ilev]: the fill block of level ilev
    levelSteps: seq<int>,
    refRatios: seq<IntVect>)

  /** A run over `pf` that did everything `main_main` does after the lookups. */
  predicate RunFor(run: Run, plotfile: string, pf: PlotFile, species: seq<string>, amrexDim: nat)
    requires |species| > 0 && WellFormed(pf, amrexDim)
  {
    Success(run.outfile) == OutputPath(plotfile) &&
    Success(run.comps) == Fields(pf.varNames, species) &&
    run.varNames == VarNames() &&
    IsPolicyFor(run.policy, pf.spaceDim, amrexDim) &&
    |run.fills| == NumLevels(pf) &&
    (forall ilev :: 0 <= ilev < |run.fills| ==>
       LevelPlanned(run.fills[ilev], ilev, LevelRatio(pf, ilev), Targets(run.comps, |species|))) &&
    MetadataFor(run.levelSteps, run.refRatios, pf) &&
    forall ilev, k :: 0 < ilev < |run.fills| && 0 <= k < |run.fills[ilev]| ==>
      run.fills[ilev][k].src.TwoLevels? && run.fills[ilev][k].src.ratio == run.refRatios[ilev - 1]
  }

  /**
   * `main_main`: path check, dimensionality assert, the six lookups, the
   * boundary policy, the per-level fills, the output metadata. Every abort
   * is the first one the source reaches.
   */
  method MainMain(plotfile: string, pf: PlotFile, species: seq<string>, amrexDim: nat) returns (r: Result<Run, Fatal>)
    requires |species| > 0 && WellFormed(pf, amrexDim)
    ensures plotfile == [] ==> r == Failure(NoPlotfile)
    ensures plotfile != [] && pf.spaceDim > amrexDim ==> r == Failure(SpaceDimTooLarge(pf.spaceDim))
    ensures plotfile != [] && pf.spaceDim <= amrexDim ==>
              (r.Success? <==> Fields(pf.varNames, species).Success?) &&
              (r.Failure? ==> r.error == Fields(pf.varNames, species).error)
    ensures r.Success? ==> RunFor(r.value, plotfile, pf, species, amrexDim)
  {
    var outfile :- OutputPath(plotfile);

    var ndims := pf.spaceDim;
    if ndims > amrexDim {
      return Failure(SpaceDimTooLarge(ndims));
    }
    var names := pf.varNames;

    var dens :- GetDensIndex(names);
    var temp :- GetTempIndex(names);
    var pres :- GetPresIndex(names);
    var spec :- GetSpecIndex(names, species);
    var vy :- GetVyIndex(names);
    var dT :- GetDTIndex(names);
    var comps := Comps(dens, temp, pres, spec, vy, dT);

    var policy := InterpretBoundaries(ndims, amrexDim);

    var fills := PlanLevels(pf, amrexDim, comps, |species|);

    var levelSteps, refRatios := AssembleMetadata(pf, amrexDim);
    FillRatiosAreWrittenRatios(pf, fills, Targets(comps, |species|), levelSteps, refRatios);
    r := Success(Run(outfile, comps, VarNames(), policy, fills, levelSteps, refRatios));
  }
}

=== FILE: hierarchy.dfy ===
/**
 * The plotfile metadata the two diagnostics consult, the refinement-ratio
 * truncation to the active axes, and the `level_steps` / `ref_ratio`
 * vectors handed to `WriteMultiLevelPlotfile`.
 */
module Hierarchy {

  /**
   * An AMReX `IntVect`: one integer per compiled axis (AMREX_SPACEDIM of them).
   * The tools build every ratio as `IntVect(pf.refRatio(l))` from a single
   * int, so a plotfile's ratio is the same on every axis; the model allows
   * any per-axis ratio, which covers that case.
   */
  type IntVect = seq<int>

  /** What is read from a `PlotFileData` apart from the cell data itself. */
  datatype PlotFile = PlotFile(
    spaceDim: nat,           // pf.spaceDim(): the dataset's active dimensionality
    finestLevel: nat,        // pf.finestLevel()
    varNames: seq<string>,   // pf.varNames()
    refRatio: seq<IntVect>,  // refRatio[l] == pf.refRatio(l), between levels l and l + 1
    levelStep: seq<int>)     // levelStep[l] == pf.levelStep(l)

  /** A hierarchy as AMReX writes one: a step count per level and a ratio per coarse level. */
  predicate WellFormed(pf: PlotFile, amrexDim: nat) {
    |pf.levelStep| == pf.finestLevel + 1 &&
    |pf.refRatio| == pf.finestLevel &&
    forall l :: 0 <= l < |pf.refRatio| ==> |pf.refRatio[l]| == amrexDim
  }

  function NumLevels(pf: PlotFile): nat {
    pf.finestLevel + 1
  }

  /** A ratio with every axis at or beyond `ndims` forced to 1. */
  function Truncated(r: IntVect, ndims: nat): IntVect {
    seq(|r|, i requires 0 <= i < |r| => if i < ndims then r[i] else 1)
  }

  /** `for (idim = ndims; idim < AMREX_SPACEDIM; ++idim) ratio[idim] = 1;` */
  method TruncateRatio(r: IntVect, ndims: nat) returns (t: IntVect)
    ensures |t| == |r|
    ensures forall i :: 0 <= i < |r| && i < ndims ==> t[i] == r[i]
    ensures forall i :: ndims <= i < |r| ==> t[i] == 1
    ensures t == Truncated(r, ndims)
  {
    t := r;
    var idim := ndims;
    while idim < |t|
      invariant |t| == |r|
      invariant ndims <= idim
      invariant forall i :: 0 <= i < |r| ==> t[i] == if ndims <= i < idim then 1 else r[i]
    {
      t := t[idim := 1];
      idim := idim + 1;
    }
  }

  /** The metadata written with the output: steps of every level, truncated ratios below the finest. */
  predicate MetadataFor(levelSteps: seq<int>, refRatios: seq<IntVect>, pf: PlotFile) {
    |levelSteps| == NumLevels(pf) <= |pf.levelStep| &&
    (forall l :: 0 <= l < |levelSteps| ==> levelSteps[l] == pf.levelStep[l]) &&
    |refRatios| == pf.finestLevel <= |pf.refRatio| &&
    forall l :: 0 <= l < |refRatios| ==> refRatios[l] == Truncated(pf.refRatio[l], pf.spaceDim)
  }

  /**
   * The `push_back` loop at the end of `main_main`: one step count per
   * level, and for every level below the finest its ratio, then truncated
   * in place.
   */
  method AssembleMetadata(pf: PlotFile, amrexDim: nat) returns (levelSteps: seq<int>, refRatios: seq<IntVect>)
    requires WellFormed(pf, amrexDim)
    ensures MetadataFor(levelSteps, refRatios, pf)
  {
    levelSteps, refRatios := [], [];
    var nlevs := NumLevels(pf);
    for ilev := 0 to nlevs
      invariant |levelSteps| == ilev
      invariant forall l :: 0 <= l < ilev ==> levelSteps[l] == pf.levelStep[l]
      invariant |refRatios| == if ilev <= pf.finestLevel then ilev else pf.finestLevel
      invariant forall l :: 0 <= l < |refRatios| ==> refRatios[l] == Truncated(pf.refRatio[l], pf.spaceDim)
    {
      levelSteps := levelSteps + [pf.levelStep[ilev]];
      if ilev < pf.finestLevel {
        refRatios := refRatios + [pf.refRatio[ilev]];
        var t := TruncateRatio(refRatios[ilev], pf.spaceDim);
        refRatios := refRatios[ilev := t];
      }
    }
  }
}

=== FILE: lookup.dfy ===
/** `std::find` over a plotfile's variable names, followed by `std::distance`. */
module Lookup {

  import opened Wrappers

  /** `i` is where `std::find` stops when looking for `x`: its first slot. */
  predicate IsFirst(names: seq<string>, x: string, i: nat) {
    i < |names| && names[i] == x && forall j :: 0 <= j < i ==> names[j] != x
  }

  /** The first index holding `x`, or None when `find` returns `end()`. */
  function Find(names: seq<string>, x: string): (r: Option<nat>)
    ensures r.None? <==> x !in names
    ensures r.Some? ==> IsFirst(names, x, r.value)
  {
    if |names| == 0 then None
    else if names[0] == x then Some(0)
    else
      match Find(names[1..], x)
      case None =>
        assert names == [names[0]] + names[1..];
        None
      case Some(i) =>
        assert forall j :: 1 <= j <= i ==> names[j] == names[1..][j - 1];
        Some(i + 1)
  }

  /**
   * The resolver pattern: look for `primary`, and only when it is absent
   * anywhere in the list look for `alias`. Priority beats position.
   */
  function FindEither(names: seq<string>, primary: string, alias: string): (r: Option<nat>)
    ensures r.None? <==> primary !in names && alias !in names
    ensures primary in names ==> r.Some? && IsFirst(names, primary, r.value)
    ensures primary !in names && alias in names ==> r.Some? && IsFirst(names, alias, r.value)
  {
    match Find(names, primary)
    case Some(i) => Some(i)
    case None => Find(names, alias)
  }
}

=== FILE: paths.dfy ===
/** The string handling that turns the plotfile argument into an output path. */
module Paths {

  /** `if (pltfile.back() == '/') pltfile.pop_back();` on a path that may be empty. */
  function StripTrailingSlash(p: string): (r: string)
    ensures |r| <= |p| <= |r| + 1 && r == p[..|r|]
    ensures |r| < |p| <==> p != [] && p[|p| - 1] == '/'
  {
    if p != [] && p[|p| - 1] == '/' then p[..|p| - 1] else p
  }

  /**
   * `std::filesystem::path(p).filename()` on a POSIX path: everything after
   * the last '/', which is empty when `p` ends in '/'.
   */
  function LastComponent(p: string): (r: string)
    ensures |r| <= |p| && r == p[|p| - |r|..]
    ensures '/' !in r
    ensures |r| < |p| ==> p[|p| - |r| - 1] == '/'
  {
    if p == [] || p[|p| - 1] == '/' then []
    else
      var init := p[..|p| - 1];
      var r := LastComponent(init);
      assert p == init + [p[|p| - 1]];
      r + [p[|p| - 1]]
  }

  /** The component after the last '/' of `dir/base` is `base` when `base` has no '/'. */
  lemma {:induction false} LastComponentAfterSlash(dir: string, base: string)
    requires '/' !in base
    ensures LastComponent(dir + "/" + base) == base
  {
    var p := dir + "/" + base;
    if base == [] {
      assert p[|p| - 1] == '/';
    } else {
      var init := base[..|base| - 1];
      LastComponentAfterSlash(dir, init);
      assert p[..|p| - 1] == dir + "/" + init;
      assert base == init + [base[|base| - 1]];
    }
  }
}

=== FILE: wrappers.dfy ===
/** Failure-compatible wrappers used for every lookup and every fatal abort. */
module Wrappers {

  datatype Option<+T> = None | Some(value: T)

  datatype Result<+R, +E> = Success(value: R) | Failure(error: E) {

    predicate IsFailure() {
      Failure?
    }

    function PropagateFailure<U>(): Result<U, E>
      requires Failure?
    {
      Failure(error)
    }

    function Extract(): R
      requires Success?
    {
      value
    }
  }
}
